=== FILE: README.md ===
# Form 990 viewer core in Dafny

This project models the core of a small Flask dashboard over IRS Form 990 XML filings
(`app.py`). It covers two parts.

- **The flattener** (`flatten_dict`). It turns a parsed XML document into one map from
  path strings to leaf values.
  - A mapping child gets the path `parent.key`, or the bare `key` at the top.
  - A list element gets `parent[i]`.
  - Keys starting with `@` (XML attributes) are skipped, together with everything below them.
  - A scalar or empty element is stored at the path reached so far.
- **The record selection** of the `index` handler, lifted out of Flask into a pure
  computation.
  - The query parameters are narrowed to the active filters: names that are filterable
    attributes and whose first value is not whitespace-only.
  - Every document is flattened and gets a `filename` entry.
  - A record is kept when there are no active filters, or when every filter's value
    equals the record's value at the filter's path. The comparison ignores case, and a
    missing path reads as `""`.

Files:

- `wrappers.dfy`: the `Option` type. A leaf is `None` for an empty XML element.
- `paths.dfy` (module `Paths`): path steps (`Key`/`Index`) and the two path rules
  (`Join`, `IndexPath`). It also has their fold over a list of steps (`Extend`), and a
  parser (`ParsePath`) that reads a path back into its steps.
- `flatten.dfy` (module `Flattening`): the document tree (`Node`, `Field`) and the
  flattener. It also has a reference definition, the leaves of a document with the steps
  that reach them (`Leaves`). The theorems tie the two together.
- `records.dfy` (module `Records`): active filters, matching, the `filename` entry, and
  the selection loop.
- `scenarios.dfy` (module `Scenarios`): worked examples on small filings.

The flattener folds the children of a node in document order with map union, so a
later pair wins on a repeated path. That is what Python's `dict(items)` does. The model
reads `request.args.items()` as Werkzeug defines it: for each name, only the first value
given.

Three facts about `app.py` shape the model:

- Line 65 overwrites a document path named `filename` with the file's name.
  `BuildRecord` states exactly that.
- Every leaf has a path of its own when mapping keys are non-empty and free of `.`,
  `[` and `]` (`WellFormed`, `FlattenOneEntryPerLeaf`). Otherwise two leaves can
  share one path, and the later leaf wins (`DottedKeyCollision`).
- Lines 57-61 drop a filter whose value is whitespace-only. They judge only the
  first value given for a name.

## Model

| member | source | states |
|---|---|---|
| Flattening.Flatten | app.py:35-49 | A scalar or empty element yields exactly the pair (parent path, value). An empty mapping or empty list yields the empty map. Every emitted path extends the parent path. |
| Flattening.FlattenFields | app.py:37-42 | Every path a mapping's fields emit extends the parent path. |
| Flattening.FlattenItems | app.py:43-46 | Every path a list's elements emit extends the parent path. |
| Flattening.IsAttribute | app.py:39 | A key is skipped exactly when it starts with `@`, the xmltodict marker for an XML attribute. |
| Flattening.ToMap | app.py:49 | `dict(items)` keys are exactly the paths that occur in the pair list. |
| Flattening.ToMapAppend | app.py:42-49 | Extending the item list and building a dict equals the union of the two dicts, the later pairs winning. |
| Flattening.FlattenIsRenderedLeaves | app.py:35-49 | The flattener emits exactly the document's non-attribute leaves. Each sits at the path its steps spell under the rules of lines 41 and 45. A later leaf wins on a repeated path. |
| Flattening.FieldsAreRenderedLeaves | app.py:37-42 | The same, for the fields of one mapping. |
| Flattening.ItemsAreRenderedLeaves | app.py:43-46 | The same, for the elements of one list. |
| Flattening.LeavesShape | app.py:38-46 | Suppose keys are unique per mapping, and non-attribute keys are non-empty and free of `.`, `[` and `]`. Then the leaves' step lists are pairwise different and use only such keys. |
| Flattening.ToMapDistinctSize | app.py:49 | `dict(items)` over pairwise different paths has one entry per pair. |
| Flattening.ToMapDistinctValues | app.py:49 | `dict(items)` over pairwise different paths keeps each pair's value. |
| Flattening.FlattenOneEntryPerLeaf | app.py:35-49 | Under those key restrictions, the top-level flattening has exactly one entry per non-attribute scalar leaf. Each leaf's path maps to its value, and the path parses back to the leaf's steps. |
| Flattening.AttributeIgnored | app.py:39-40 | Removing a field whose key starts with `@` leaves the flattening unchanged, whatever lies below that field. |
| Paths.Digits | app.py:45 | The decimal text of a list position is non-empty and made of digits only. |
| Paths.DigitsRoundTrip | app.py:45 | Reading the decimal text of a position back gives the position. |
| Paths.Join | app.py:41 | A mapping child's path: the parent path, `.`, then the key; at the top (empty parent) just the key. |
| Paths.IndexPath | app.py:45 | A list element's path: the parent path followed by `[`, the decimal position and `]`, with no separator. |
| Paths.ExtendBelow | app.py:41-45 | Below a non-empty parent, each key step appends `.key` and each position step appends `[i]`. |
| Paths.KeyFirstPath | app.py:41 | At the top (empty parent), a first key stands bare, with no leading `.`. |
| Paths.IndexFirstPath | app.py:45 | At the top, a first position is just `[i]`, with no separator before the bracket. |
| Paths.ParseSegmentsRoundTrip | app.py:41-45 | Parsing a run of `.key` / `[i]` segments gives back the steps that rendered it. |
| Paths.ParsePathRoundTrip | app.py:41-45 | Parsing a top-level path gives back the steps that built it, for non-empty delimiter-free keys. |
| Paths.ExtendInjective | app.py:41-45 | Two different step lists with such keys never produce the same top-level path. |
| Paths.ReadSegmentSound | app.py:41-45 | A segment the reader accepts is exactly the text of `.key` (valid key) or `[i]` for the step it returns. |
| Paths.ParseSegmentsSound | app.py:41-45 | Any run of segments the parser accepts is the rendering of the steps it returns, and those steps use valid keys only. |
| Paths.ParsePathSound | app.py:41-45 | Any path the parser accepts is the path the flattener builds from the returned steps. With `ParsePathRoundTrip`, parsing and path building are inverse on valid steps. |
| Records.FirstValue | app.py:59 | The value `request.args.items()` reports for a name: the first value given for it, or none when the query does not mention it. |
| Records.FirstValueAtFirstOccurrence | app.py:59 | The value reported for a name is the one at its first occurrence in the query. A name the query does not mention has none. |
| Records.IsSpace | app.py:60 | The characters Python's `str.strip()` removes: the Unicode whitespace code points. |
| Records.IsBlank | app.py:60 | `v.strip()` is empty: every character is whitespace, which includes the empty string. |
| Records.ActiveFilters | app.py:57-61 | A name is an active filter iff it is a filterable attribute, it occurs in the query, and its first value is not whitespace-only. The filter's value is that first value. |
| Records.Lower | app.py:67 | `.lower()`: same length, no capital A-Z left, each capital moved to its small letter (+32), every other character unchanged. |
| Records.LowerIdempotent | app.py:67 | Lowering an already lowered string changes nothing, so `Lower(Lower(s)) == Lower(s)`. |
| Records.Shown | app.py:67 | `str()` of a leaf: its text, or `"None"` for an empty element. |
| Records.Lookup | app.py:67 | `str(flat.get(path, ""))`: the leaf's text at the path, `"None"` for an empty leaf, `""` for a missing path. |
| Records.Matches | app.py:66-69 | For every active filter, its lowered value equals the lowered text the record holds at the filter's path. |
| Records.AllMatch | app.py:66-69 | Running `all(...)` filter by filter in any order, stopping at the first mismatch, gives true exactly when `Matches` holds. |
| Records.Keep | app.py:70 | `matches or not filters`: the record matches every filter, or there is no active filter. |
| Records.BuildRecord | app.py:64-65 | The record maps `filename` to the file's name, overriding any document path of that name. Every other path maps to its flattened value. |
| Records.Selected | app.py:63-70 | The keep decision for one loaded file: `Keep` applied to its record with the `filename` entry added. |
| Records.FilterMap | app.py:62-71 | The loop computes exactly the reference definitions: the records of the elements that pass the test, in input order, and the positions of those elements. |
| Records.FilteredAtPositions | app.py:62-71 | The k-th output is the record of the element at the k-th kept position, and that element passes the test. |
| Records.PositionsIncreasing | app.py:63 | Kept positions are strictly increasing and inside the input, so input order is preserved. |
| Records.PositionsComplete | app.py:63-71 | Every element that passes the test has its position kept. |
| Records.Listing | app.py:62-71 | Reference for the result: the records of the selected files, appended in input order. |
| Records.Index | app.py:57-71 | The processed list is exactly the reference listing: the records of the files that the active filters select, in input order. |
| Records.ListingIsFiltered | app.py:62-71 | The record listing is the generic loop reference, with the record test of lines 66-70 and the record builder of lines 64-65. |
| Records.SelectedIsListed | app.py:62-71 | The record of every file that the filters select is listed. |
| Records.ListedIsSelected | app.py:62-71 | Every listed record is the record of some file that the filters select. Together with `SelectedIsListed`, a record is listed exactly when a selected file has it. |
| Records.ListingUnfiltered | app.py:70 | With no active filter (`or not filters`), every file's record is listed, in input order. |
| Records.ListingOrdered | app.py:62-71 | The listing is an order-preserving selection: strictly increasing positions of selected files whose records are exactly the listing, with every selected file's position among them. |
| Records.MissingPathExcludes | app.py:66-70 | An active filter never keeps a record that lacks the filter's path, because the filter's value is never blank. |
| Records.CaseInsensitive | app.py:67 | Filter values that agree up to case keep the same records. |
| Records.NoneFilterKeepsEmptyLeaf | app.py:66-70 | A lone filter whose value is `none` in any case keeps a filing whose element at the filter's path is empty, because `str(None)` lowers to `none`. |
| Scenarios.OneField | app.py:41-42 | A one-field mapping flattens as its child under the joined path. |
| Scenarios.FlattenNestedExample | app.py:39-46 | In a nested filing, an `@` attribute disappears and list elements become `Filer.Name[0]` and `Filer.Name[1]`, the empty one as `None`. |
| Scenarios.FlattenTopLevelListExample | app.py:45 | A top-level list element's path is `[0]`. |
| Scenarios.StateQueryFilters | app.py:57-61 | `?State=ca` yields the single filter State = `ca`. |
| Scenarios.StateFilterKeepsMatch | app.py:66-70 | Under State = `ca`, a filing whose state is `CA` is kept. |
| Scenarios.StateFilterDropsOther | app.py:66-70 | Under State = `ca`, a filing whose state is `NY` is dropped. |
| Scenarios.BlankAndUnknownFiltersIgnored | app.py:57-61 | A whitespace-only first value disables the filter even if a real value follows, and a non-filterable name is ignored. |
| Scenarios.DottedKeyCollision | app.py:41-49 | A key containing `.` makes two leaves share one path, and the later leaf replaces the earlier. |

## Left out

- `load_records` (app.py:25-33) is left out: it globs a directory, reads files and parses
  XML with xmltodict. Its result, the list of `(filename, document)` pairs, is an input of
  `Records.Index`. Parse errors are not modelled.
- Configuration loading (app.py:12-22) is left out: it reads an environment variable and
  a JSON file. The filterable-attribute map is a parameter.
- A list-shaped `filterable_attributes` is not modelled. With a list, no request
  succeeds. When a filter is active and a file is loaded, the lookup
  `FILTERABLE_ATTRIBUTES[attr]` (app.py:67) raises a `TypeError`. Otherwise
  `FILTERABLE_ATTRIBUTES.keys()` (app.py:73) raises an `AttributeError`.
- The Flask route, `request.args` access, `render_template` and the attribute names handed
  to the template (app.py:52-54, 72-74) are left out. The query is a list of
  `(name, value)` pairs given in request order.
- The debug-mode `app.run` block (app.py:77-80) is left out.
- The `sep` parameter of `flatten_dict` is fixed to `"."`, because `index` never passes
  another separator.
- The insertion order of keys in a flattened dict is not modelled. A record is a Dafny
  `map`, which has no key order.
- Records.Lower: models `str.lower()` on ASCII letters only. Full Unicode case mapping,
  including mappings that change the length of a string, is not modelled.
- Records.Matches: is stated for filters whose names are filterable attributes. Only such
  filters can reach it, so the `KeyError` the lookup would raise otherwise is not modelled.
- Attribute paths are strings (`Attributes = map<string, string>`). In `app.py` a JSON
  list as a path makes `flat.get` raise a `TypeError` (app.py:67), and a number or
  `null` path never matches a record; neither is modelled.
- `str()` is modelled only for the values xmltodict produces: strings, and `None`, which
  prints as `"None"`.

=== FILE: flatten.dfy ===
/** The recursive flattener of app.py (flatten_dict, lines 35-49).

    A parsed XML document is a tree of mappings, lists and scalar leaves. The
    flattener turns it into one map from path strings to leaf values: mapping
    children extend the path with ".key", list elements with "[i]", and keys
    that start with "@" (XML attributes) are skipped together with everything
    below them. */
module Flattening {
  import opened Wrappers
  import opened Paths

  /** A parsed document node. Leaves carry the element text, `None` for an
      empty element. */
  datatype Node = Map(fields: seq<Field>) | List(items: seq<Node>) | Leaf(value: Option<string>)

  /** One key of a mapping node, in document order. */
  datatype Field = Field(key: string, child: Node)

  /** A flattened record: path to leaf value. */
  type Flat = map<string, Option<string>>

  /** Keys that xmltodict produces for XML attributes. */
  predicate IsAttribute(key: string) {
    |key| > 0 && key[0] == '@'
  }

  /* ---------- the flattener ---------- */

  /** `flatten_dict(n, parent)`. Children are folded in document order with
      map union, so that on a repeated path the later pair wins, as Python's
      `dict(items)` does. */
  function Flatten(n: Node, parent: string): (r: Flat)
    ensures n.Leaf? ==> r == map[parent := n.value]
    ensures n == Map([]) || n == List([]) ==> r == map[]
    ensures forall p :: p in r ==> parent <= p
    decreases n
  {
    match n
    case Map(fs) => FlattenFields(fs, parent)
    case List(xs) => FlattenItems(xs, parent)
    case Leaf(v) => map[parent := v]
  }

  /** The loop over `obj.items()` (app.py:38-42). */
  function FlattenFields(fs: seq<Field>, parent: string): (r: Flat)
    ensures forall p :: p in r ==> parent <= p
    decreases fs
  {
    if fs == [] then map[]
    else
      var last := fs[|fs| - 1];
      var front := FlattenFields(fs[..|fs| - 1], parent);
      if IsAttribute(last.key) then front
      else front + Flatten(last.child, Join(parent, last.key))
  }

  /** The loop over `enumerate(obj)` (app.py:44-46). */
  function FlattenItems(xs: seq<Node>, parent: string): (r: Flat)
    ensures forall p :: p in r ==> parent <= p
    decreases xs
  {
    if xs == [] then map[]
    else
      FlattenItems(xs[..|xs| - 1], parent)
      + Flatten(xs[|xs| - 1], IndexPath(parent, |xs| - 1))
  }

  /* ---------- reference: the leaves of a document and their steps ---------- */

  /** A scalar leaf of a document, with the steps that lead to it. */
  datatype LeafAt = LeafAt(steps: seq<Step>, value: Option<string>)

  /** Puts one more step in front of every leaf's steps. */
  function Under(step: Step, ls: seq<LeafAt>): (r: seq<LeafAt>)
    ensures |r| == |ls|
    ensures forall i :: 0 <= i < |ls| ==> r[i] == LeafAt([step] + ls[i].steps, ls[i].value)
  {
    seq(|ls|, i requires 0 <= i < |ls| => LeafAt([step] + ls[i].steps, ls[i].value))
  }

  /** The leaves of `n` outside attribute subtrees, in document order. */
  function Leaves(n: Node): seq<LeafAt>
    decreases n
  {
    match n
    case Map(fs) => LeavesFields(fs)
    case List(xs) => LeavesItems(xs)
    case Leaf(v) => [LeafAt([], v)]
  }

  function LeavesFields(fs: seq<Field>): seq<LeafAt>
    decreases fs
  {
    if fs == [] then []
    else
      var last := fs[|fs| - 1];
      LeavesFields(fs[..|fs| - 1])
      + (if IsAttribute(last.key) then [] else Under(Key(last.key), Leaves(last.child)))
  }

  function LeavesItems(xs: seq<Node>): seq<LeafAt>
    decreases xs
  {
    if xs == [] then []
    else LeavesItems(xs[..|xs| - 1]) + Under(Index(|xs| - 1), Leaves(xs[|xs| - 1]))
  }

  /** The number of scalar leaves of `n` outside attribute subtrees. */
  function LeafCount(n: Node): nat
    decreases n
  {
    match n
    case Map(fs) => FieldsLeafCount(fs)
    case List(xs) => ItemsLeafCount(xs)
    case Leaf(_) => 1
  }

  function FieldsLeafCount(fs: seq<Field>): nat
    decreases fs
  {
    if fs == [] then 0
    else
      var last := fs[|fs| - 1];
      FieldsLeafCount(fs[..|fs| - 1]) + (if IsAttribute(last.key) then 0 else LeafCount(last.child))
  }

  function ItemsLeafCount(xs: seq<Node>): nat
    decreases xs
  {
    if xs == [] then 0 else ItemsLeafCount(xs[..|xs| - 1]) + LeafCount(xs[|xs| - 1])
  }

  /** Each leaf's path below `parent`, paired with its value. */
  function Rendered(parent: string, ls: seq<LeafAt>): (r: seq<(string, Option<string>)>)
    ensures |r| == |ls|
    ensures forall i :: 0 <= i < |ls| ==> r[i] == (Extend(parent, ls[i].steps), ls[i].value)
  {
    seq(|ls|, i requires 0 <= i < |ls| => (Extend(parent, ls[i].steps), ls[i].value))
  }

  /** Python's `dict(items)`: later pairs overwrite earlier ones. */
  function ToMap(ps: seq<(string, Option<string>)>): (r: Flat)
    ensures r.Keys == set i | 0 <= i < |ps| :: ps[i].0
    decreases |ps|
  {
    if ps == [] then map[] else ToMap(ps[..|ps| - 1])[ps[|ps| - 1].0 := ps[|ps| - 1].1]
  }

  /* ---------- the flattener against the reference ---------- */

  lemma {:induction false} ToMapAppend(a: seq<(string, Option<string>)>, b: seq<(string, Option<string>)>)
    ensures ToMap(a + b) == ToMap(a) + ToMap(b)
    decreases |b|
  {
    if b != [] {
      var b' := b[..|b| - 1];
      assert (a + b)[..|a + b| - 1] == a + b';
      ToMapAppend(a, b');
    } else {
      assert a + b == a;
    }
  }

  lemma RenderedUnder(parent: string, step: Step, ls: seq<LeafAt>)
    ensures Rendered(parent, Under(step, ls)) == Rendered(StepPath(parent, step), ls)
  {
    forall i | 0 <= i < |ls|
      ensures Extend(parent, [step] + ls[i].steps) == Extend(StepPath(parent, step), ls[i].steps)
    {
      assert ([step] + ls[i].steps)[1..] == ls[i].steps;
    }
  }

  /** The flattener emits exactly the leaves, each at the path its steps spell
      below `parent`, with later leaves winning on a repeated path. */
  lemma {:induction false} FlattenIsRenderedLeaves(n: Node, parent: string)
    ensures Flatten(n, parent) == ToMap(Rendered(parent, Leaves(n)))
    decreases n
  {
    match n
    case Map(fs) => FieldsAreRenderedLeaves(fs, parent);
    case List(xs) => ItemsAreRenderedLeaves(xs, parent);
    case Leaf(v) =>
      assert Rendered(parent, Leaves(n)) == [(parent, v)];
      assert ToMap([(parent, v)]) == ToMap([])[parent := v];
  }

  lemma RenderedAppend(parent: string, a: seq<LeafAt>, b: seq<LeafAt>)
    ensures Rendered(parent, a + b) == Rendered(parent, a) + Rendered(parent, b)
  {
  }

  lemma {:induction false} FieldsAreRenderedLeaves(fs: seq<Field>, parent: string)
    ensures FlattenFields(fs, parent) == ToMap(Rendered(parent, LeavesFields(fs)))
    decreases fs
  {
    if fs != [] {
      var last := fs[|fs| - 1];
      var front := fs[..|fs| - 1];
      var tail := if IsAttribute(last.key) then [] else Under(Key(last.key), Leaves(last.child));
      var r1, r2 := Rendered(parent, LeavesFields(front)), Rendered(parent, tail);
      assert LeavesFields(fs) == LeavesFields(front) + tail;
      RenderedAppend(parent, LeavesFields(front), tail);
      ToMapAppend(r1, r2);
      FieldsAreRenderedLeaves(front, parent);
      assert ToMap(Rendered(parent, LeavesFields(fs))) == FlattenFields(front, parent) + ToMap(r2);
      if IsAttribute(last.key) {
        assert r2 == [];
      } else {
        RenderedUnder(parent, Key(last.key), Leaves(last.child));
        FlattenIsRenderedLeaves(last.child, Join(parent, last.key));
        assert ToMap(r2) == Flatten(last.child, Join(parent, last.key));
      }
    }
  }

  lemma {:induction false} ItemsAreRenderedLeaves(xs: seq<Node>, parent: string)
    ensures FlattenItems(xs, parent) == ToMap(Rendered(parent, LeavesItems(xs)))
    decreases xs
  {
    if xs != [] {
      var i := |xs| - 1;
      var front := xs[..i];
      var tail := Under(Index(i), Leaves(xs[i]));
      var r1, r2 := Rendered(parent, LeavesItems(front)), Rendered(parent, tail);
      assert LeavesItems(xs) == LeavesItems(front) + tail;
      RenderedAppend(parent, LeavesItems(front), tail);
      ToMapAppend(r1, r2);
      ItemsAreRenderedLeaves(front, parent);
      RenderedUnder(parent, Index(i), Leaves(xs[i]));
      FlattenIsRenderedLeaves(xs[i], IndexPath(parent, i));
      assert ToMap(r2) == Flatten(xs[i], IndexPath(parent, i));
    }
  }

  /* ---------- documents whose paths cannot collide ---------- */

  /** The keys of a mapping node. */
  function KeysOf(fs: seq<Field>): set<string> {
    set i | 0 <= i < |fs| :: fs[i].key
  }

  /** Keys are unique within each mapping (as in any Python dict), and every
      key that is not an attribute is non-empty and free of ".", "[" and "]". */
  predicate WellFormed(n: Node)
    decreases n
  {
    match n
    case Map(fs) => WellFormedFields(fs)
    case List(xs) => WellFormedItems(xs)
    case Leaf(_) => true
  }

  predicate WellFormedFields(fs: seq<Field>)
    decreases fs
  {
    fs == [] ||
    var last := fs[|fs| - 1];
    && WellFormedFields(fs[..|fs| - 1])
    && last.key !in KeysOf(fs[..|fs| - 1])
    && (IsAttribute(last.key) || (ValidKey(last.key) && WellFormed(last.child)))
  }

  predicate WellFormedItems(xs: seq<Node>)
    decreases xs
  {
    xs == [] || (WellFormedItems(xs[..|xs| - 1]) && WellFormed(xs[|xs| - 1]))
  }

  predicate AllValid(ls: seq<LeafAt>) {
    forall i :: 0 <= i < |ls| ==> ValidSteps(ls[i].steps)
  }

  predicate DistinctSteps(ls: seq<LeafAt>) {
    forall i, j :: 0 <= i < j < |ls| ==> ls[i].steps != ls[j].steps
  }

  lemma UnderKeepsShape(step: Step, ls: seq<LeafAt>)
    requires step.Key? ==> ValidKey(step.name)
    requires AllValid(ls) && DistinctSteps(ls)
    ensures AllValid(Under(step, ls)) && DistinctSteps(Under(step, ls))
    ensures forall i :: 0 <= i < |ls| ==> Under(step, ls)[i].steps[0] == step
  {
    var u := Under(step, ls);
    forall i | 0 <= i < |u| ensures ValidSteps(u[i].steps) {
      var s := u[i].steps;
      forall j | 0 <= j < |s| && s[j].Key? ensures ValidKey(s[j].name) {
        if j > 0 {
          assert s[j] == ls[i].steps[j - 1];
        }
      }
    }
    forall i, j | 0 <= i < j < |u| ensures u[i].steps != u[j].steps {
      assert u[i].steps[1..] == ls[i].steps;
      assert u[j].steps[1..] == ls[j].steps;
    }
  }

  lemma AppendKeepsShape(a: seq<LeafAt>, b: seq<LeafAt>)
    requires AllValid(a) && AllValid(b) && DistinctSteps(a) && DistinctSteps(b)
    requires forall i, j :: 0 <= i < |a| && 0 <= j < |b| ==> a[i].steps != b[j].steps
    ensures AllValid(a + b) && DistinctSteps(a + b)
  {
    var c := a + b;
    forall i, j | 0 <= i < j < |c| ensures c[i].steps != c[j].steps {
      if j < |a| {
      } else if i >= |a| {
        assert c[i] == b[i - |a|] && c[j] == b[j - |a|];
      } else {
        assert c[i] == a[i] && c[j] == b[j - |a|];
      }
    }
  }

  /** In a well-formed document the leaves have pairwise different, valid
      steps. */
  lemma {:induction false} LeavesShape(n: Node)
    requires WellFormed(n)
    ensures AllValid(Leaves(n)) && DistinctSteps(Leaves(n))
    decreases n
  {
    match n
    case Map(fs) => FieldsLeavesShape(fs);
    case List(xs) => ItemsLeavesShape(xs);
    case Leaf(_) =>
  }

  lemma {:induction false} FieldsLeavesShape(fs: seq<Field>)
    requires WellFormedFields(fs)
    ensures AllValid(LeavesFields(fs)) && DistinctSteps(LeavesFields(fs))
    ensures forall i :: 0 <= i < |LeavesFields(fs)| ==>
      var s := LeavesFields(fs)[i].steps; s != [] && s[0].Key? && s[0].name in KeysOf(fs)
    decreases fs
  {
    if fs != [] {
      var last := fs[|fs| - 1];
      var front := fs[..|fs| - 1];
      var a := LeavesFields(front);
      var b := if IsAttribute(last.key) then [] else Under(Key(last.key), Leaves(last.child));
      assert LeavesFields(fs) == a + b;
      FieldsLeavesShape(front);
      assert KeysOf(front) <= KeysOf(fs) by {
        forall i | 0 <= i < |front| ensures front[i].key in KeysOf(fs) {
          assert front[i] == fs[i];
        }
      }
      assert last.key in KeysOf(fs);
      if !IsAttribute(last.key) {
        LeavesShape(last.child);
        UnderKeepsShape(Key(last.key), Leaves(last.child));
      }
      forall i, j | 0 <= i < |a| && 0 <= j < |b| ensures a[i].steps != b[j].steps {
        assert a[i].steps[0].name in KeysOf(front);
      }
      AppendKeepsShape(a, b);
      forall i | 0 <= i < |a + b|
        ensures var s := (a + b)[i].steps; s != [] && s[0].Key? && s[0].name in KeysOf(fs)
      {
        if i >= |a| {
          assert (a + b)[i] == b[i - |a|];
        }
      }
    }
  }

  lemma {:induction false} ItemsLeavesShape(xs: seq<Node>)
    requires WellFormedItems(xs)
    ensures AllValid(LeavesItems(xs)) && DistinctSteps(LeavesItems(xs))
    ensures forall i :: 0 <= i < |LeavesItems(xs)| ==>
      var s := LeavesItems(xs)[i].steps; s != [] && s[0].Index? && s[0].pos < |xs|
    decreases xs
  {
    if xs != [] {
      var k := |xs| - 1;
      var front := xs[..k];
      var a := LeavesItems(front);
      var b := Under(Index(k), Leaves(xs[k]));
      assert LeavesItems(xs) == a + b;
      ItemsLeavesShape(front);
      LeavesShape(xs[k]);
      UnderKeepsShape(Index(k), Leaves(xs[k]));
      forall i, j | 0 <= i < |a| && 0 <= j < |b| ensures a[i].steps != b[j].steps {
        assert a[i].steps[0].pos < k;
      }
      AppendKeepsShape(a, b);
      forall i | 0 <= i < |a + b|
        ensures var s := (a + b)[i].steps; s != [] && s[0].Index? && s[0].pos < |xs|
      {
        if i >= |a| {
          assert (a + b)[i] == b[i - |a|];
        }
      }
    }
  }

  predicate DistinctPaths(ps: seq<(string, Option<string>)>) {
    forall i, j :: 0 <= i < j < |ps| ==> ps[i].0 != ps[j].0
  }

  lemma DistinctPathsFront(ps: seq<(string, Option<string>)>)
    requires ps != [] && DistinctPaths(ps)
    ensures DistinctPaths(ps[..|ps| - 1])
    ensures ps[|ps| - 1].0 !in ToMap(ps[..|ps| - 1])
  {
    var front := ps[..|ps| - 1];
    forall i | 0 <= i < |front| ensures front[i].0 != ps[|ps| - 1].0 {
      assert front[i] == ps[i];
    }
  }

  /** With pairwise different paths, `dict(items)` loses no pair. */
  lemma {:induction false} ToMapDistinctSize(ps: seq<(string, Option<string>)>)
    requires DistinctPaths(ps)
    ensures |ToMap(ps)| == |ps|
    decreases |ps|
  {
    if ps != [] {
      DistinctPathsFront(ps);
      ToMapDistinctSize(ps[..|ps| - 1]);
    }
  }

  /** With pairwise different paths, `dict(items)` keeps every pair's value. */
  lemma {:induction false} ToMapDistinctValues(ps: seq<(string, Option<string>)>)
    requires DistinctPaths(ps)
    ensures forall i :: 0 <= i < |ps| ==> ToMap(ps)[ps[i].0] == ps[i].1
    decreases |ps|
  {
    if ps != [] {
      var front := ps[..|ps| - 1];
      DistinctPathsFront(ps);
      ToMapDistinctValues(front);
      forall i | 0 <= i < |ps| - 1 ensures ToMap(ps)[ps[i].0] == ps[i].1 {
        assert ps[i] == front[i];
        assert ps[i].0 != ps[|ps| - 1].0;
      }
    }
  }

  lemma {:induction false} LeavesCounted(n: Node)
    ensures |Leaves(n)| == LeafCount(n)
    decreases n
  {
    match n
    case Map(fs) => FieldsLeavesCounted(fs);
    case List(xs) => ItemsLeavesCounted(xs);
    case Leaf(_) =>
  }

  lemma {:induction false} FieldsLeavesCounted(fs: seq<Field>)
    ensures |LeavesFields(fs)| == FieldsLeafCount(fs)
    decreases fs
  {
    if fs != [] {
      FieldsLeavesCounted(fs[..|fs| - 1]);
      LeavesCounted(fs[|fs| - 1].child);
    }
  }

  lemma {:induction false} ItemsLeavesCounted(xs: seq<Node>)
    ensures |LeavesItems(xs)| == ItemsLeafCount(xs)
    decreases xs
  {
    if xs != [] {
      ItemsLeavesCounted(xs[..|xs| - 1]);
      LeavesCounted(xs[|xs| - 1]);
    }
  }

  /** A well-formed document flattens to exactly one entry per leaf outside
      attribute subtrees: each leaf sits, with its own value, at the path its
      steps spell, and that path parses back to those steps. */
  lemma FlattenOneEntryPerLeaf(n: Node)
    requires WellFormed(n)
    ensures |Flatten(n, "")| == LeafCount(n)
    ensures forall i :: 0 <= i < |Leaves(n)| ==>
      var path := Extend("", Leaves(n)[i].steps);
      && path in Flatten(n, "")
      && Flatten(n, "")[path] == Leaves(n)[i].value
      && ParsePath(path) == Some(Leaves(n)[i].steps)
  {
    var ls := Leaves(n);
    var ps := Rendered("", ls);
    FlattenIsRenderedLeaves(n, "");
    LeavesShape(n);
    LeavesCounted(n);
    forall i, j | 0 <= i < j < |ps| ensures ps[i].0 != ps[j].0 {
      if ps[i].0 == ps[j].0 {
        ExtendInjective(ls[i].steps, ls[j].steps);
      }
    }
    ToMapDistinctSize(ps);
    ToMapDistinctValues(ps);
    forall i | 0 <= i < |ls| ensures ParsePath(Extend("", ls[i].steps)) == Some(ls[i].steps) {
      ParsePathRoundTrip(ls[i].steps);
    }
  }

  /* ---------- attribute keys ---------- */

  lemma {:induction false} FlattenFieldsAppend(a: seq<Field>, b: seq<Field>, parent: string)
    ensures FlattenFields(a + b, parent) == FlattenFields(a, parent) + FlattenFields(b, parent)
    decreases |b|
  {
    if b == [] {
      assert a + b == a;
    } else {
      var b' := b[..|b| - 1];
      assert (a + b)[..|a + b| - 1] == a + b';
      assert (a + b)[|a + b| - 1] == b[|b| - 1];
      FlattenFieldsAppend(a, b', parent);
    }
  }

  /** A field whose key starts with "@" contributes nothing, whatever lies
      below it: the result is the same as if it were not there (app.py:39-40). */
  lemma AttributeIgnored(fs: seq<Field>, i: nat, parent: string)
    requires i < |fs| && IsAttribute(fs[i].key)
    ensures Flatten(Map(fs), parent) == Flatten(Map(fs[..i] + fs[i + 1..]), parent)
  {
    assert fs == fs[..i] + [fs[i]] + fs[i + 1..];
    FlattenFieldsAppend(fs[..i] + [fs[i]], fs[i + 1..], parent);
    FlattenFieldsAppend(fs[..i], [fs[i]], parent);
    FlattenFieldsAppend(fs[..i], fs[i + 1..], parent);
    assert [fs[i]][..0] == [];
  }
}

=== FILE: paths.dfy ===
/** Path strings of the flattener (app.py, flatten_dict).

    A flattened path is built one step at a time: a mapping key is appended
    with the separator "." (or stands alone when the parent path is empty), a
    list position is appended as "[i]" with no separator. This module names a
    step, folds a list of steps into the string the flattener builds, and
    parses such strings back into steps. */
module Paths {
  import opened Wrappers

  /** One step down a parsed document: into a mapping by key, or into a list
      by position. */
  datatype Step = Key(name: string) | Index(pos: nat)

  /* ---------- decimal rendering of list positions ---------- */

  predicate IsDigit(c: char) {
    '0' <= c <= '9'
  }

  predicate AllDigits(s: string) {
    forall i :: 0 <= i < |s| ==> IsDigit(s[i])
  }

  function DigitChar(d: nat): (c: char)
    requires d < 10
    ensures IsDigit(c) && c as int - '0' as int == d
  {
    ('0' as int + d) as char
  }

  /** The decimal text of `n`, as Python formats an `int` in an f-string. */
  function Digits(n: nat): (s: string)
    ensures |s| > 0 && AllDigits(s)
    decreases n
  {
    if n < 10 then [DigitChar(n)] else Digits(n / 10) + [DigitChar(n % 10)]
  }

  /** The number a string of decimal digits denotes. */
  function DigitsValue(s: string): nat
    requires AllDigits(s)
  {
    if s == [] then 0
    else DigitsValue(s[..|s| - 1]) * 10 + (s[|s| - 1] as int - '0' as int)
  }

  /** Reading back the decimal text of a position gives the position. */
  lemma {:induction false} DigitsRoundTrip(n: nat)
    ensures DigitsValue(Digits(n)) == n
    decreases n
  {
    if n >= 10 {
      var s := Digits(n);
      DigitsRoundTrip(n / 10);
      assert s[..|s| - 1] == Digits(n / 10);
    }
  }

  /* ---------- the two path rules of flatten_dict ---------- */

  /** Path of a mapping child (app.py:41): `parent.key`, or the bare key at the top. */
  function Join(parent: string, key: string): string {
    if parent == "" then key else parent + "." + key
  }

  /** Path of a list element (app.py:45): `parent[i]`, with no separator. */
  function IndexPath(parent: string, i: nat): string {
    parent + "[" + Digits(i) + "]"
  }

  /** The path reached from `parent` by one step. */
  function StepPath(parent: string, step: Step): string {
    match step
    case Key(k) => Join(parent, k)
    case Index(i) => IndexPath(parent, i)
  }

  /** The path reached from `parent` by following `steps` in order. */
  function Extend(parent: string, steps: seq<Step>): string
    decreases |steps|
  {
    if steps == [] then parent else Extend(StepPath(parent, steps[0]), steps[1..])
  }

  /* ---------- the textual shape of a path ---------- */

  /** Characters that delimit the steps of a path. */
  predicate IsDelimiter(c: char) {
    c == '.' || c == '[' || c == ']'
  }

  predicate NoDelimiter(s: string) {
    forall i :: 0 <= i < |s| ==> !IsDelimiter(s[i])
  }

  /** A key that can be told apart once it is inside a path: non-empty and
      free of the delimiters. */
  predicate ValidKey(k: string) {
    k != "" && NoDelimiter(k)
  }

  predicate ValidSteps(steps: seq<Step>) {
    forall i :: 0 <= i < |steps| ==> steps[i].Key? ==> ValidKey(steps[i].name)
  }

  /** The text one step adds below a non-empty parent. */
  function Segment(step: Step): string {
    match step
    case Key(k) => "." + k
    case Index(i) => "[" + Digits(i) + "]"
  }

  function Segments(steps: seq<Step>): string
    decreases |steps|
  {
    if steps == [] then "" else Segment(steps[0]) + Segments(steps[1..])
  }

  /** Below a non-empty parent, every step adds its segment. */
  lemma {:induction false} ExtendBelow(parent: string, steps: seq<Step>)
    requires parent != ""
    ensures Extend(parent, steps) == parent + Segments(steps)
    decreases |steps|
  {
    if steps == [] {
      assert parent + Segments(steps) == parent + "";
    } else {
      var next := StepPath(parent, steps[0]);
      StepBelow(parent, steps[0], Segments(steps[1..]));
      ExtendBelow(next, steps[1..]);
    }
  }

  /** One step below a non-empty parent appends its segment, in front of
      whatever text follows. */
  lemma StepBelow(parent: string, step: Step, rest: string)
    requires parent != ""
    ensures StepPath(parent, step) + rest == parent + (Segment(step) + rest)
    ensures StepPath(parent, step) != ""
  {
    var seg := Segment(step);
    match step
    case Key(k) =>
      assert parent + "." + k == parent + seg;
    case Index(i) =>
      assert parent + "[" + Digits(i) + "]" == parent + seg;
    assert (parent + seg) + rest == parent + (seg + rest);
  }

  /** From the top, a leading key stands bare, without a ".". */
  lemma KeyFirstPath(k: string, rest: seq<Step>)
    requires k != ""
    ensures Extend("", [Key(k)] + rest) == k + Segments(rest)
    ensures Segments([Key(k)] + rest) == "." + (k + Segments(rest))
  {
    assert ([Key(k)] + rest)[1..] == rest;
    ExtendBelow(k, rest);
  }

  /** From the top, a leading position is its plain segment "[i]". */
  lemma IndexFirstPath(i: nat, rest: seq<Step>)
    ensures Extend("", [Index(i)] + rest) == Segments([Index(i)] + rest)
    ensures Extend("", [Index(i)] + rest)[0] == '['
  {
    var seg := Segment(Index(i));
    assert ([Index(i)] + rest)[1..] == rest;
    assert StepPath("", Index(i)) == seg;
    ExtendBelow(seg, rest);
    assert (seg + Segments(rest))[0] == seg[0];
  }

  /* ---------- parsing a path back into steps ---------- */

  /** The longest prefix of `t` free of delimiters. */
  function Token(t: string): (k: string)
    ensures |k| <= |t| && k == t[..|k|] && NoDelimiter(k)
    ensures |k| < |t| ==> IsDelimiter(t[|k|])
    decreases |t|
  {
    if t == [] || IsDelimiter(t[0]) then "" else [t[0]] + Token(t[1..])
  }

  /** A parsed step in front of a parsed remainder; a failure stays a failure. */
  function Cons(step: Step, rest: Option<seq<Step>>): Option<seq<Step>> {
    match rest
    case None => None
    case Some(tail) => Some([step] + tail)
  }

  /** Reads the first segment of `t`, `.key` or `[digits]`, returning the step
      it stands for and its length. */
  function ReadSegment(t: string): (r: Option<(Step, nat)>)
    ensures r.Some? ==> 0 < r.value.1 <= |t|
  {
    if t == [] then None
    else if t[0] == '.' then
      var k := Token(t[1..]);
      if k == "" then None else Some((Key(k), 1 + |k|))
    else if t[0] == '[' then
      var d := Token(t[1..]);
      if d == "" || !AllDigits(d) || Digits(DigitsValue(d)) != d
         || 1 + |d| == |t| || t[1 + |d|] != ']' then None
      else Some((Index(DigitsValue(d)), 2 + |d|))
    else None
  }

  /** Parses a run of segments, each `.key` or `[digits]`. */
  function ParseSegments(t: string): Option<seq<Step>>
    decreases |t|
  {
    if t == [] then Some([])
    else match ReadSegment(t)
      case None => None
      case Some((step, n)) => Cons(step, ParseSegments(t[n..]))
  }

  /** Splits a flattened path back into the steps that built it. */
  function ParsePath(p: string): Option<seq<Step>> {
    if p == [] then Some([])
    else if p[0] == '[' then ParseSegments(p)
    else ParseSegments("." + p)
  }

  /** A token followed by nothing or by a delimiter is read back whole. */
  lemma {:induction false} TokenOfJoin(k: string, rest: string)
    requires NoDelimiter(k)
    requires rest == [] || IsDelimiter(rest[0])
    ensures Token(k + rest) == k
    decreases |k|
  {
    if k == [] {
      assert k + rest == rest;
    } else {
      assert (k + rest)[0] == k[0];
      assert (k + rest)[1..] == k[1..] + rest;
      TokenOfJoin(k[1..], rest);
      assert [k[0]] + k[1..] == k;
    }
  }

  lemma SegmentsNonEmpty(steps: seq<Step>)
    requires steps != []
    ensures Segments(steps) != []
  {
    assert |Segment(steps[0])| > 0;
  }

  lemma SegmentsStart(steps: seq<Step>)
    ensures Segments(steps) == [] || IsDelimiter(Segments(steps)[0])
  {
    if steps != [] {
      var s := Segment(steps[0]);
      assert Segments(steps)[0] == s[0];
    }
  }

  /** A `.key` segment followed by a delimiter or nothing is read as its key. */
  lemma ReadKeySegment(k: string, rest: string)
    requires ValidKey(k)
    requires rest == [] || IsDelimiter(rest[0])
    ensures ReadSegment("." + k + rest) == Some((Key(k), 1 + |k|))
  {
    var t := "." + k + rest;
    assert t[1..] == k + rest;
    TokenOfJoin(k, rest);
  }

  lemma DigitsNoDelimiter(i: nat)
    ensures NoDelimiter(Digits(i))
  {
    var d := Digits(i);
    forall j | 0 <= j < |d| ensures !IsDelimiter(d[j]) {
      assert IsDigit(d[j]);
    }
  }

  /** A `[digits]` segment is read as its position. */
  lemma ReadIndexSegment(i: nat, rest: string)
    ensures ReadSegment("[" + Digits(i) + "]" + rest) == Some((Index(i), 2 + |Digits(i)|))
  {
    var d := Digits(i);
    var t := "[" + d + "]" + rest;
    assert t[1..] == d + ("]" + rest);
    DigitsNoDelimiter(i);
    TokenOfJoin(d, "]" + rest);
    DigitsRoundTrip(i);
    assert t[1 + |d|] == ']';
  }

  /** Any rendered segment is read back as its step. */
  lemma ReadSegmentOf(step: Step, rest: string)
    requires step.Key? ==> ValidKey(step.name)
    requires rest == [] || IsDelimiter(rest[0])
    ensures ReadSegment(Segment(step) + rest) == Some((step, |Segment(step)|))
  {
    match step
    case Key(k) => ReadKeySegment(k, rest);
    case Index(i) => ReadIndexSegment(i, rest);
  }

  lemma ValidStepsTail(steps: seq<Step>)
    requires steps != [] && ValidSteps(steps)
    ensures ValidSteps(steps[1..])
    ensures steps[0].Key? ==> ValidKey(steps[0].name)
  {
    forall i | 0 <= i < |steps[1..]| && steps[1..][i].Key?
      ensures ValidKey(steps[1..][i].name)
    {
      assert steps[1..][i] == steps[i + 1];
    }
  }

  /** Parsing inverts rendering below a non-empty parent. */
  lemma {:induction false} ParseSegmentsRoundTrip(steps: seq<Step>)
    requires ValidSteps(steps)
    ensures ParseSegments(Segments(steps)) == Some(steps)
    decreases |steps|
  {
    if steps != [] {
      var seg, rest := Segment(steps[0]), Segments(steps[1..]);
      ValidStepsTail(steps);
      ParseSegmentsRoundTrip(steps[1..]);
      SegmentsStart(steps[1..]);
      ReadSegmentOf(steps[0], rest);
      assert Segments(steps) == seg + rest;
      assert (seg + rest)[|seg|..] == rest;
      assert [steps[0]] + steps[1..] == steps;
    }
  }

  /** A path from the top is its segments, except that a leading key loses
      its ".". */
  lemma PathAsSegments(steps: seq<Step>)
    requires ValidSteps(steps)
    ensures var p, t := Extend("", steps), Segments(steps);
      || (p == [] && t == [])
      || (p != [] && p[0] != '[' && "." + p == t)
      || (p != [] && p[0] == '[' && p == t)
  {
    if steps != [] {
      ValidStepsTail(steps);
      assert steps == [steps[0]] + steps[1..];
      match steps[0]
      case Key(k) =>
        KeyFirstPath(k, steps[1..]);
        assert (k + Segments(steps[1..]))[0] == k[0];
        assert !IsDelimiter(k[0]);
      case Index(i) =>
        IndexFirstPath(i, steps[1..]);
    }
  }

  /** Rendering from the top and parsing back gives the steps (the flattened
      path determines the nesting that produced it). */
  lemma ParsePathRoundTrip(steps: seq<Step>)
    requires ValidSteps(steps)
    ensures ParsePath(Extend("", steps)) == Some(steps)
  {
    var p, t := Extend("", steps), Segments(steps);
    PathAsSegments(steps);
    ParseSegmentsRoundTrip(steps);
    if p == [] {
      assert steps == [] by {
        if steps != [] {
          SegmentsNonEmpty(steps);
        }
      }
    }
  }

  /** A segment that is read at all is read as a segment the flattener can
      render, and it is exactly the text consumed. */
  lemma ReadSegmentSound(t: string)
    requires ReadSegment(t).Some?
    ensures var (step, n) := ReadSegment(t).value;
      t[..n] == Segment(step) && (step.Key? ==> ValidKey(step.name))
  {
    var tail := t[1..];
    var k := Token(tail);
    assert k == tail[..|k|];
    if t[0] == '.' {
      assert t[..1 + |k|] == "." + k;
    } else {
      assert t[..2 + |k|] == "[" + k + "]";
    }
  }

  lemma SegmentsCons(step: Step, rest: seq<Step>)
    ensures Segments([step] + rest) == Segment(step) + Segments(rest)
  {
    assert ([step] + rest)[1..] == rest;
  }

  lemma ValidStepsCons(step: Step, rest: seq<Step>)
    requires step.Key? ==> ValidKey(step.name)
    requires ValidSteps(rest)
    ensures ValidSteps([step] + rest)
  {
    var steps := [step] + rest;
    forall i | 0 <= i < |steps| && steps[i].Key? ensures ValidKey(steps[i].name) {
      if i > 0 {
        assert steps[i] == rest[i - 1];
      }
    }
  }

  /** One segment read, then the rest parsed. */
  lemma ParseSegmentsStep(t: string)
    requires ParseSegments(t).Some? && t != []
    ensures ReadSegment(t).Some?
    ensures var (step, n) := ReadSegment(t).value;
      ParseSegments(t[n..]).Some? && ParseSegments(t).value == [step] + ParseSegments(t[n..]).value
  {
  }

  /** A rendered segment in front of rendered segments renders the whole. */
  lemma SegmentsPrepend(t: string, step: Step, n: nat, rest: seq<Step>)
    requires n <= |t| && t[..n] == Segment(step) && (step.Key? ==> ValidKey(step.name))
    requires Segments(rest) == t[n..] && ValidSteps(rest)
    ensures Segments([step] + rest) == t && ValidSteps([step] + rest)
  {
    SegmentsCons(step, rest);
    ValidStepsCons(step, rest);
    assert t[..n] + t[n..] == t;
  }

  /** Whatever `ParseSegments` accepts is the rendering of the steps it
      returns, and those steps use only valid keys. */
  lemma {:induction false} ParseSegmentsSound(t: string)
    requires ParseSegments(t).Some?
    ensures Segments(ParseSegments(t).value) == t
    ensures ValidSteps(ParseSegments(t).value)
    decreases |t|
  {
    if t != [] {
      ParseSegmentsStep(t);
      ReadSegmentSound(t);
      var read := ReadSegment(t).value;
      ParseSegmentsSound(t[read.1..]);
      SegmentsPrepend(t, read.0, read.1, ParseSegments(t[read.1..]).value);
    }
  }

  /** A path the parser accepts is exactly the path the flattener builds
      from the steps it returns: parsing and rendering are inverse. */
  lemma ParsePathSound(p: string)
    requires ParsePath(p).Some?
    ensures Extend("", ParsePath(p).value) == p
    ensures ValidSteps(ParsePath(p).value)
  {
    var steps := ParsePath(p).value;
    if p != [] {
      var t := if p[0] == '[' then p else "." + p;
      assert ParsePath(p) == ParseSegments(t);
      ParseSegmentsSound(t);
      assert Segments(steps) == t;
      assert steps != [];
      assert steps == [steps[0]] + steps[1..];
      assert Segment(steps[0])[0] == t[0];
      match steps[0]
      case Key(k) =>
        assert t[0] == '.';
        KeyFirstPath(k, steps[1..]);
      case Index(i) =>
        IndexFirstPath(i, steps[1..]);
    }
  }

  /** Distinct well-formed step lists give distinct paths from the top. */
  lemma ExtendInjective(a: seq<Step>, b: seq<Step>)
    requires ValidSteps(a) && ValidSteps(b)
    requires Extend("", a) == Extend("", b)
    ensures a == b
  {
    ParsePathRoundTrip(a);
    ParsePathRoundTrip(b);
  }
}

=== FILE: records.dfy ===
/** The record selection of the `index` handler (app.py:57-71), lifted out of
    Flask into a pure computation over the filterable-attribute map, the query
    parameters and the loaded `(filename, document)` pairs. */
module Records {
  import opened Wrappers
  import opened Flattening

  /** Public attribute name to the flattened path it filters on. */
  type Attributes = map<string, string>

  /** Query parameters in the order they appear in the request. */
  type Query = seq<(string, string)>

  /* ---------- whitespace and case ---------- */

  /** Characters that Python's `str.strip()` removes. */
  predicate IsSpace(c: char) {
    var x := c as int;
    || 0x09 <= x <= 0x0D || 0x1C <= x <= 0x20 || x == 0x85 || x == 0xA0
    || x == 0x1680 || 0x2000 <= x <= 0x200A || x == 0x2028 || x == 0x2029
    || x == 0x202F || x == 0x205F || x == 0x3000
  }

  /** `v.strip()` is empty. */
  predicate IsBlank(s: string) {
    forall i :: 0 <= i < |s| ==> IsSpace(s[i])
  }

  function LowerChar(c: char): char {
    if 'A' <= c <= 'Z' then (c as int + 32) as char else c
  }

  /** `str.lower()` on ASCII letters: no capital is left, a capital becomes
      its small letter, and every other character is kept. */
  function Lower(s: string): (r: string)
    ensures |r| == |s|
    ensures forall i :: 0 <= i < |r| ==> !('A' <= r[i] <= 'Z')
    ensures forall i :: 0 <= i < |s| && 'A' <= s[i] <= 'Z' ==> r[i] as int == s[i] as int + 32
    ensures forall i :: 0 <= i < |s| && !('A' <= s[i] <= 'Z') ==> r[i] == s[i]
  {
    seq(|s|, i requires 0 <= i < |s| => LowerChar(s[i]))
  }

  /** Lowering twice is lowering once. */
  lemma LowerIdempotent(s: string)
    ensures Lower(Lower(s)) == Lower(s)
  {
  }

  /** `str(v)` for a leaf value: an empty element prints as "None". */
  function Shown(v: Option<string>): string {
    match v
    case Some(s) => s
    case None => "None"
  }

  /** `str(flat.get(path, ""))`. */
  function Lookup(flat: Flat, path: string): string {
    if path in flat then Shown(flat[path]) else ""
  }

  /* ---------- the active filters (app.py:57-61) ---------- */

  /** Position `i` holds the first value given for its name. */
  predicate FirstOccurrence(query: Query, i: int) {
    0 <= i < |query| && forall j :: 0 <= j < i ==> query[j].0 != query[i].0
  }

  function Names(query: Query): set<string> {
    set i | 0 <= i < |query| :: query[i].0
  }

  /** The value Werkzeug's `request.args.items()` reports for `name`: the
      first one given, if any. */
  function FirstValue(query: Query, name: string): Option<string>
    decreases |query|
  {
    if query == [] then None
    else if query[0].0 == name then Some(query[0].1)
    else FirstValue(query[1..], name)
  }

  /** `FirstValue` picks the value at the name's first occurrence, and finds
      nothing for a name the query does not mention. */
  lemma {:induction false} FirstValueAtFirstOccurrence(query: Query, name: string)
    ensures name !in Names(query) ==> FirstValue(query, name) == None
    ensures forall i :: FirstOccurrence(query, i) && query[i].0 == name ==>
      FirstValue(query, name) == Some(query[i].1)
    decreases |query|
  {
    if query != [] {
      FirstValueAtFirstOccurrence(query[1..], name);
      assert Names(query) == {query[0].0} + Names(query[1..]) by {
        forall x | x in Names(query) ensures x in {query[0].0} + Names(query[1..]) {
          var i :| 0 <= i < |query| && query[i].0 == x;
          if i > 0 {
            assert query[1..][i - 1] == query[i];
          }
        }
      }
      forall i | FirstOccurrence(query, i) && query[i].0 == name
        ensures FirstValue(query, name) == Some(query[i].1)
      {
        if i > 0 {
          assert query[1..][i - 1] == query[i];
          assert FirstOccurrence(query[1..], i - 1);
        }
      }
    }
  }

  /** The filters of a request: each filterable name with its first value,
      dropped when that value is only whitespace (app.py:57-61). */
  function ActiveFilters(attrs: Attributes, query: Query): (r: map<string, string>)
    ensures forall name :: name in r <==>
      name in attrs && FirstValue(query, name).Some? && !IsBlank(FirstValue(query, name).value)
    ensures forall name :: name in r ==> r[name] == FirstValue(query, name).value
    decreases |query|
  {
    if query == [] then map[]
    else
      var (name, value) := query[0];
      var rest := ActiveFilters(attrs, query[1..]) - {name};
      if name in attrs && !IsBlank(value) then rest[name := value] else rest
  }

  /* ---------- matching one record (app.py:66-70) ---------- */

  /** Every active filter equals, ignoring case, the record's value at the
      filter's path; a missing path reads as "". */
  predicate Matches(attrs: Attributes, filters: map<string, string>, flat: Flat)
    requires filters.Keys <= attrs.Keys
  {
    forall a :: a in filters ==> Lower(Lookup(flat, attrs[a])) == Lower(filters[a])
  }

  /** `matches or not filters`. */
  predicate Keep(attrs: Attributes, filters: map<string, string>, flat: Flat)
    requires filters.Keys <= attrs.Keys
  {
    Matches(attrs, filters, flat) || |filters| == 0
  }

  /** The `all(...)` of app.py:66-69 as Python runs it: the filters are
      visited one at a time, in whatever order the dict yields them, and the
      first mismatch ends the scan. */
  method AllMatch(attrs: Attributes, filters: map<string, string>, flat: Flat) returns (b: bool)
    requires filters.Keys <= attrs.Keys
    ensures b <==> Matches(attrs, filters, flat)
  {
    var todo := filters.Keys;
    while todo != {}
      invariant todo <= filters.Keys
      invariant forall a :: a in filters && a !in todo ==>
        Lower(Lookup(flat, attrs[a])) == Lower(filters[a])
      decreases |todo|
    {
      var a :| a in todo;
      if Lower(Lookup(flat, attrs[a])) != Lower(filters[a]) {
        return false;
      }
      todo := todo - {a};
    }
    return true;
  }

  /** The flattened document with its file's name added under "filename"
      (app.py:64-65); that key overrides a document path of the same name. */
  function BuildRecord(filename: string, tree: Node): (r: Flat)
    ensures "filename" in r && r["filename"] == Some(filename)
    ensures forall p :: p != "filename" ==>
      (p in r <==> p in Flatten(tree, "")) && (p in r ==> r[p] == Flatten(tree, "")[p])
  {
    Flatten(tree, "")["filename" := Some(filename)]
  }

  /** Whether `index` keeps the record of `file` under `filters`. */
  predicate Selected(attrs: Attributes, filters: map<string, string>, file: (string, Node))
    requires filters.Keys <= attrs.Keys
  {
    Keep(attrs, filters, BuildRecord(file.0, file.1))
  }

  /** Reference for the loop of `index`: `f` of the elements of `xs` that
      pass `keep`, in order. */
  function Filtered<T, U>(xs: seq<T>, keep: T -> bool, f: T -> U): seq<U>
  {
    if xs == [] then []
    else
      var front := Filtered(xs[..|xs| - 1], keep, f);
      if keep(xs[|xs| - 1]) then front + [f(xs[|xs| - 1])] else front
  }

  /** Reference for the positions the loop of `index` keeps: those of the
      elements of `xs` that pass `keep`, in order. */
  function Positions<T>(xs: seq<T>, keep: T -> bool): seq<nat>
  {
    if xs == [] then []
    else
      var front := Positions(xs[..|xs| - 1], keep);
      if keep(xs[|xs| - 1]) then front + [|xs| - 1] else front
  }

  /** The `k`-th kept output is `f` of the element at the `k`-th kept
      position, and that element passes `keep`. */
  lemma {:induction false} FilteredAtPositions<T, U>(xs: seq<T>, keep: T -> bool, f: T -> U)
    ensures |Filtered(xs, keep, f)| == |Positions(xs, keep)|
    ensures forall k :: 0 <= k < |Positions(xs, keep)| ==>
      && Positions(xs, keep)[k] < |xs|
      && keep(xs[Positions(xs, keep)[k]])
      && Filtered(xs, keep, f)[k] == f(xs[Positions(xs, keep)[k]])
    decreases |xs|
  {
    if xs != [] {
      var front := xs[..|xs| - 1];
      FilteredAtPositions(front, keep, f);
      forall i | 0 <= i < |front| ensures front[i] == xs[i] { }
    }
  }

  /** The kept positions are strictly increasing: input order is kept. */
  lemma {:induction false} PositionsIncreasing<T>(xs: seq<T>, keep: T -> bool)
    ensures forall k, l :: 0 <= k < l < |Positions(xs, keep)| ==>
      Positions(xs, keep)[k] < Positions(xs, keep)[l]
    ensures forall k :: 0 <= k < |Positions(xs, keep)| ==> Positions(xs, keep)[k] < |xs|
    decreases |xs|
  {
    if xs != [] {
      PositionsIncreasing(xs[..|xs| - 1], keep);
    }
  }

  /** Every element that passes `keep` has its position kept. */
  lemma {:induction false} PositionsComplete<T>(xs: seq<T>, keep: T -> bool)
    ensures forall j :: 0 <= j < |xs| && keep(xs[j]) ==> j in Positions(xs, keep)
    decreases |xs|
  {
    if xs != [] {
      var front := xs[..|xs| - 1];
      PositionsComplete(front, keep);
      forall j | 0 <= j < |front| ensures front[j] == xs[j] { }
    }
  }

  /** The loop of `index` (app.py:62-71) over any list: `out` holds `f` of
      the elements that pass `keep`, in order, and `kept` their positions. */
  method FilterMap<T, U>(xs: seq<T>, keep: T -> bool, f: T -> U)
    returns (out: seq<U>, kept: seq<nat>)
    ensures out == Filtered(xs, keep, f)
    ensures kept == Positions(xs, keep)
  {
    out, kept := [], [];
    for j := 0 to |xs|
      invariant out == Filtered(xs[..j], keep, f)
      invariant kept == Positions(xs[..j], keep)
    {
      assert xs[..j + 1][..j] == xs[..j];
      if keep(xs[j]) {
        out, kept := out + [f(xs[j])], kept + [j];
      }
    }
    assert xs[..|xs|] == xs;
  }

  /** Reference for what `index` lists: the records of the files that
      `filters` select, in input order. */
  function Listing(attrs: Attributes, filters: map<string, string>, files: seq<(string, Node)>): seq<Flat>
    requires filters.Keys <= attrs.Keys
  {
    if files == [] then []
    else
      var front := Listing(attrs, filters, files[..|files| - 1]);
      var last := files[|files| - 1];
      if Selected(attrs, filters, last) then front + [BuildRecord(last.0, last.1)] else front
  }

  /** `Listing` is the loop's reference instantiated with the record test
      and the record builder. */
  lemma {:induction false} ListingIsFiltered(attrs: Attributes, filters: map<string, string>, files: seq<(string, Node)>)
    requires filters.Keys <= attrs.Keys
    ensures Listing(attrs, filters, files) == Filtered(files,
      (file: (string, Node)) => Selected(attrs, filters, file),
      (file: (string, Node)) => BuildRecord(file.0, file.1))
    decreases |files|
  {
    if files != [] {
      ListingIsFiltered(attrs, filters, files[..|files| - 1]);
    }
  }

  /** `index` without Flask: the records shown for a request. */
  method Index(attrs: Attributes, query: Query, files: seq<(string, Node)>)
    returns (processed: seq<Flat>)
    ensures processed == Listing(attrs, ActiveFilters(attrs, query), files)
  {
    var filters := ActiveFilters(attrs, query);
    var kept;
    processed, kept := FilterMap(files,
      (file: (string, Node)) => Selected(attrs, filters, file),
      (file: (string, Node)) => BuildRecord(file.0, file.1));
    ListingIsFiltered(attrs, filters, files);
  }

  /** The record of every selected file is listed. */
  lemma {:induction false} SelectedIsListed(attrs: Attributes, filters: map<string, string>, files: seq<(string, Node)>, j: nat)
    requires filters.Keys <= attrs.Keys
    requires j < |files| && Selected(attrs, filters, files[j])
    ensures BuildRecord(files[j].0, files[j].1) in Listing(attrs, filters, files)
    decreases |files|
  {
    var front := files[..|files| - 1];
    if j < |front| {
      assert front[j] == files[j];
      SelectedIsListed(attrs, filters, front, j);
    }
  }

  /** Every listed record is the record of a selected file. */
  lemma {:induction false} ListedIsSelected(attrs: Attributes, filters: map<string, string>, files: seq<(string, Node)>, r: Flat)
    requires filters.Keys <= attrs.Keys
    requires r in Listing(attrs, filters, files)
    ensures exists j :: 0 <= j < |files| && Selected(attrs, filters, files[j]) && r == BuildRecord(files[j].0, files[j].1)
    decreases |files|
  {
    var front := files[..|files| - 1];
    if r in Listing(attrs, filters, front) {
      ListedIsSelected(attrs, filters, front, r);
      var j :| 0 <= j < |front| && Selected(attrs, filters, front[j]) && r == BuildRecord(front[j].0, front[j].1);
      assert front[j] == files[j];
    }
  }

  /** With no active filter, every file's record is listed, in input order. */
  lemma {:induction false} ListingUnfiltered(attrs: Attributes, files: seq<(string, Node)>)
    ensures |Listing(attrs, map[], files)| == |files|
    ensures forall j :: 0 <= j < |files| ==>
      Listing(attrs, map[], files)[j] == BuildRecord(files[j].0, files[j].1)
    decreases |files|
  {
    if files != [] {
      ListingUnfiltered(attrs, files[..|files| - 1]);
    }
  }

  /** The listing is an order-preserving choice of records: there are
      strictly increasing positions of selected files whose records are the
      listing, and every selected file's position is among them. */
  lemma ListingOrdered(attrs: Attributes, filters: map<string, string>, files: seq<(string, Node)>)
    requires filters.Keys <= attrs.Keys
    ensures exists ps: seq<nat> ::
      && |ps| == |Listing(attrs, filters, files)|
      && (forall k, l :: 0 <= k < l < |ps| ==> ps[k] < ps[l])
      && (forall k :: 0 <= k < |ps| ==>
            && ps[k] < |files|
            && Selected(attrs, filters, files[ps[k]])
            && Listing(attrs, filters, files)[k] == BuildRecord(files[ps[k]].0, files[ps[k]].1))
      && (forall j :: 0 <= j < |files| && Selected(attrs, filters, files[j]) ==> j in ps)
  {
    var keep := (file: (string, Node)) => Selected(attrs, filters, file);
    var build := (file: (string, Node)) => BuildRecord(file.0, file.1);
    ListingIsFiltered(attrs, filters, files);
    FilteredAtPositions(files, keep, build);
    PositionsIncreasing(files, keep);
    PositionsComplete(files, keep);
    var ps := Positions(files, keep);
    assert |ps| == |Listing(attrs, filters, files)|;
  }

  /* ---------- properties of the selection ---------- */

  /** An active filter never matches a record that lacks its path: the
      filter's value is not blank, so it cannot equal "". */
  lemma MissingPathExcludes(attrs: Attributes, query: Query, flat: Flat, a: string)
    requires a in ActiveFilters(attrs, query)
    requires attrs[a] !in flat
    ensures !Keep(attrs, ActiveFilters(attrs, query), flat)
  {
    var filters := ActiveFilters(attrs, query);
    assert !IsBlank(filters[a]);
    assert filters[a] != "";
    assert Lower(filters[a])[0] == LowerChar(filters[a][0]);
  }

  /** Filter values that agree up to case select the same records. */
  lemma CaseInsensitive(attrs: Attributes, f1: map<string, string>, f2: map<string, string>, flat: Flat)
    requires f1.Keys <= attrs.Keys && f2.Keys == f1.Keys
    requires forall a :: a in f1 ==> Lower(f1[a]) == Lower(f2[a])
    ensures Keep(attrs, f1, flat) <==> Keep(attrs, f2, flat)
  {
  }

  /** An empty element reads as `str(None)`, so a filter value spelled
      "none" in any case keeps a filing whose element at the filter's path is
      empty. */
  lemma NoneFilterKeepsEmptyLeaf(attrs: Attributes, query: Query, file: (string, Node), a: string, value: string)
    requires ActiveFilters(attrs, query) == map[a := value]
    requires Lower(value) == "none"
    requires attrs[a] != "filename"
    requires attrs[a] in Flatten(file.1, "") && Flatten(file.1, "")[attrs[a]] == None
    ensures Selected(attrs, ActiveFilters(attrs, query), file)
  {
    var filters := ActiveFilters(attrs, query);
    var record := BuildRecord(file.0, file.1);
    assert record[attrs[a]] == None;
    assert Lookup(record, attrs[a]) == "None";
    assert Lower("None") == "none" by {
      var l := Lower("None");
      assert l[0] == 'n' && l[1] == 'o' && l[2] == 'n' && l[3] == 'e';
    }
    assert Matches(attrs, filters, record);
  }
}

=== FILE: scenarios.dfy ===
/** Worked examples of the flattener and of record selection on small
    documents shaped like the IRS Form 990 filings the viewer displays. */
module Scenarios {
  import opened Wrappers
  import opened Paths
  import opened Flattening
  import opened Records

  /** A one-field mapping flattens as its child below the joined path. */
  lemma OneField(k: string, c: Node, parent: string)
    requires !IsAttribute(k)
    ensures Flatten(Map([Field(k, c)]), parent) == Flatten(c, Join(parent, k))
  {
    var fs := [Field(k, c)];
    var below := Flatten(c, Join(parent, k));
    assert fs[..0] == [];
    assert FlattenFields(fs, parent) == FlattenFields([], parent) + below;
    assert map[] + below == below;
  }

  lemma NameListFlattens()
    ensures Flatten(List([Leaf(Some("Ann")), Leaf(None)]), "Filer.Name")
         == map["Filer.Name[0]" := Some("Ann"), "Filer.Name[1]" := None]
  {
    var names := [Leaf(Some("Ann")), Leaf(None)];
    assert names[..1] == [names[0]] && [names[0]][..0] == [];
    assert Digits(0) == "0" && Digits(1) == "1";
    assert IndexPath("Filer.Name", 0) == "Filer.Name[0]";
    assert IndexPath("Filer.Name", 1) == "Filer.Name[1]";
    assert FlattenItems(names[..1], "Filer.Name") == map["Filer.Name[0]" := Some("Ann")];
  }

  /** Attributes vanish with their subtree; list elements are indexed with no
      separator before the bracket. */
  lemma FlattenNestedExample()
    ensures Flatten(
      Map([Field("Filer", Map([
        Field("@v", Leaf(Some("2"))),
        Field("Name", List([Leaf(Some("Ann")), Leaf(None)]))]))]),
      "")
      == map["Filer.Name[0]" := Some("Ann"), "Filer.Name[1]" := None]
  {
    var names := List([Leaf(Some("Ann")), Leaf(None)]);
    var fields := [Field("@v", Leaf(Some("2"))), Field("Name", names)];
    OneField("Filer", Map(fields), "");
    assert Join("", "Filer") == "Filer";
    assert fields[..1] == [fields[0]] && [fields[0]][..0] == [];
    assert FlattenFields(fields[..1], "Filer") == map[];
    assert Join("Filer", "Name") == "Filer.Name";
    NameListFlattens();
  }

  /** At the top level a list element's path is just "[i]". */
  lemma FlattenTopLevelListExample()
    ensures Flatten(List([Leaf(Some("x"))]), "") == map["[0]" := Some("x")]
  {
    assert [Leaf(Some("x"))][..0] == [];
    assert Digits(0) == "0";
    assert IndexPath("", 0) == "[0]";
  }

  /** A filing whose filer is located in `state`. */
  function StateDoc(state: string): Node {
    Map([Field("Filer", Map([Field("State", Leaf(Some(state)))]))])
  }

  const StatePath := "Filer.State"

  const StateAttrs: Attributes := map["State" := StatePath]

  lemma StateDocFlattens(state: string)
    ensures Flatten(StateDoc(state), "") == map[StatePath := Some(state)]
  {
    var inner := Map([Field("State", Leaf(Some(state)))]);
    OneField("Filer", inner, "");
    assert Join("", "Filer") == "Filer";
    OneField("State", Leaf(Some(state)), "Filer");
    assert Join("Filer", "State") == StatePath;
  }

  /** `?State=ca` yields the one filter State = "ca". */
  lemma StateQueryFilters()
    ensures ActiveFilters(StateAttrs, [("State", "ca")]) == map["State" := "ca"]
  {
    assert !IsBlank("ca") by { assert !IsSpace("ca"[0]); }
    assert FirstOccurrence([("State", "ca")], 0);
  }

  /** Under State = "ca", a filing from "CA" is kept: case is ignored. */
  lemma StateFilterKeepsMatch()
    ensures Selected(StateAttrs, map["State" := "ca"], ("a.xml", StateDoc("CA")))
  {
    StateDocFlattens("CA");
    assert Lookup(BuildRecord("a.xml", StateDoc("CA")), StatePath) == "CA";
    assert Lower("CA") == "ca" && Lower("ca") == "ca";
  }

  /** Under State = "ca", a filing from "NY" is dropped. */
  lemma StateFilterDropsOther()
    ensures !Selected(StateAttrs, map["State" := "ca"], ("b.xml", StateDoc("NY")))
  {
    var filters := map["State" := "ca"];
    var flat := BuildRecord("b.xml", StateDoc("NY"));
    StateDocFlattens("NY");
    assert Lookup(flat, StateAttrs["State"]) == "NY";
    assert Lower("NY") != Lower("ca") by {
      assert Lower("NY")[0] == 'n' && Lower("ca")[0] == 'c';
    }
    assert !Matches(StateAttrs, filters, flat) by {
      assert "State" in filters;
    }
    assert |filters| == 1;
  }

  /** A whitespace-only first value switches the filter off, even if the same
      name is given again with a real value; unknown names are ignored. */
  lemma BlankAndUnknownFiltersIgnored()
    ensures ActiveFilters(StateAttrs, [("State", " "), ("State", "ca"), ("City", "x")]) == map[]
  {
    var q := [("State", " "), ("State", "ca"), ("City", "x")];
    assert IsBlank(" ");
    assert FirstOccurrence(q, 0);
  }

  /** Without the key restriction of `WellFormed` two leaves can share a path:
      a key "a.b" collides with the child "b" of a key "a", and the later leaf
      silently replaces the earlier one. */
  lemma DottedKeyCollision()
    ensures Flatten(
      Map([Field("a", Map([Field("b", Leaf(Some("1")))])), Field("a.b", Leaf(Some("2")))]),
      "")
      == map["a.b" := Some("2")]
    ensures LeafCount(
      Map([Field("a", Map([Field("b", Leaf(Some("1")))])), Field("a.b", Leaf(Some("2")))])) == 2
  {
    var fs := [Field("a", Map([Field("b", Leaf(Some("1")))])), Field("a.b", Leaf(Some("2")))];
    assert fs[..1] == [fs[0]] && [fs[0]][..0] == [];
    OneField("a", fs[0].child, "");
    OneField("b", Leaf(Some("1")), "a");
    assert Join("", "a") == "a" && Join("a", "b") == "a.b" && Join("", "a.b") == "a.b";
    assert FlattenFields(fs[..1], "") == map["a.b" := Some("1")];
    assert FieldsLeafCount(fs[..1]) == 1 by {
      assert FieldsLeafCount([Field("b", Leaf(Some("1")))]) == 1 by {
        assert [Field("b", Leaf(Some("1")))][..0] == [];
      }
    }
  }
}

=== FILE: wrappers.dfy ===
/** The optional value used for XML leaves that may be empty (Python `None`) and
    for parse results that may fail. */
module Wrappers {

  datatype Option<+T> = None | Some(value: T)
}
